=== FILE: README.md ===
# codetime-waster: session inference and activity conversion in Dafny

codetime-waster estimates how much time a developer "wasted" coding from the
commit timestamps of their repositories, and renders the estimate as a
playful list of other things they could have done ("- Watch a movie 3
times"). This project models the three steps that carry the logic, with the
properties they promise proved:

1. **Session grouping** (`group_commits_into_sessions`): sort the caller's
   list of timestamps in place, then start at one session and add one for
   every neighbouring gap that is strictly greater than the session gap.
2. **Duration estimate** (`estimate_total_time`): sessions times the average
   minutes per session, in hours, rounded to two decimals.
3. **Activity conversion** (`convert_time_to_activities`): load the activity
   catalog for a mode, shuffle it, and walk it. Each entry whose name is not
   used yet fits `floor(total_hours / hours)` times. When that is positive a
   line is emitted and the name is marked used. The walk stops once
   `activity_count` lines exist.

The same three functions exist twice in the repository: in the package
(`codetime/time_estimator.py`, `codetime/fun_converter.py`) and, nearly
verbatim, in the single-file command line tool (`cli/codetime_waster.py`
lines 72-120). The copies differ only in docstrings, comments, one temporary
variable and the text of a printed warning; they behave the same, so one model
covers both. The table below cites whichever
copy states a property most directly.

## Representation

- A timestamp is an integer number of seconds. The test
  `gap > timedelta(minutes=g)` becomes `t[i] - t[i-1] > g * 60`.
- The caller's list is an `array<int>` that `TimeEstimator.GroupCommitsIntoSessions`
  sorts in place (`Sorting.SortInPlace`, an insertion sort). It is proved equal
  to `Sorting.SortSeq` of the old contents, which is sorted and a permutation.
- Durations and catalog costs are integer hundredths of an hour. For an integer
  `m = session_count * avg`, `round(m / 60, 2)` is the whole number nearest to
  `5m/3` hundredths. That number is `(5m + 1) / 3` with floor division. `5m/3` is
  never half-way between two integers, so the rounding rule for ties does not
  matter.
- `int(total_hours // hours)` is Python floor division. It is written out for
  negative divisors too (`FunConverter.FloorDiv`), because Dafny's `/` differs
  from Python's there.
- A catalog entry with `hours == 0` makes Python raise `ZeroDivisionError`
  when the walk reaches it. The model returns `ZeroDivisionError(name)` at
  exactly that point. An entry skipped as a duplicate, or one after the loop
  stopped, never raises.
- `load_activities` is a lookup of `"data/activities_<mode>.json"` in a map
  from path to parsed catalog. A missing file gives `[]`.
- `random.shuffle` is not modelled as randomness. The method takes the
  shuffled list as a parameter, required to be a permutation of the loaded
  catalog, and every property holds for every such permutation.

## Behaviour of the code worth knowing

- The comment at `codetime/time_estimator.py:11` says the sort is "most recent to
  oldest", but `sort()` at line 12 is ascending, and the model sorts ascending. A
  descending order would make every gap negative, and so, with a non-negative
  session gap, every input one session.
- A mode without a catalog file prints a warning and returns `[]`
  (`codetime/fun_converter.py:7-9`), so the call returns an empty list of lines
  and no error (`FunConverter.MissingCatalogGivesNoLines`).
- A cost of zero raises `ZeroDivisionError` at `codetime/fun_converter.py:25`, and
  only when the walk reaches that entry: an entry whose name is already used is
  skipped before the division.
- A negative cost is not rejected. With a non-negative total its floor-divided
  units are at most zero, so the entry adds no line and does not mark its name
  used.
- An entry that fits zero times does not mark its name used
  (`codetime/fun_converter.py:26-28`), so a later entry of the same name can
  still give that name its line (`FunConverter.EmittedFirstFit`).
- Every line starts with `"- "` (`codetime/fun_converter.py:27`).
- An `activity_count` below 1 gives at most one line: the length check at
  `codetime/fun_converter.py:30-31` runs after the first entry that is not
  skipped.

## Model

| member | source | states |
|---|---|---|
| `Sorting.SortSeq` | codetime/time_estimator.py:12 | The list after `sort()` is in ascending order and a permutation of the input, with the same length. |
| `Sorting.SortedUnique` | codetime/time_estimator.py:12 | Two ascending sequences with the same elements are equal, so the sorted list depends only on the elements. |
| `Sorting.SortSeqPermutation` | cli/codetime_waster.py:76 | Any two orderings of the same timestamps sort to the same list. |
| `Sorting.SortInPlace` | codetime/time_estimator.py:11-12 | The in-place sort leaves the caller's array equal to the ascending sort of its old contents. |
| `TimeEstimator.Splits` | codetime/time_estimator.py:17-21 | A non-empty list of n timestamps has fewer than n neighbouring gaps above the threshold. |
| `TimeEstimator.SessionCount` | codetime/time_estimator.py:3-23 | The count is 0 exactly for an empty list, and at least 1 and at most the list length otherwise. |
| `TimeEstimator.GroupCommitsIntoSessions` | codetime/time_estimator.py:3-23 | Empty input gives 0 and is not touched. Otherwise the array is left sorted ascending and a permutation of the input. The result is 1 plus the sorted gaps strictly above `session_gap_minutes * 60`. |
| `TimeEstimator.SessionCountPermutation` | cli/codetime_waster.py:73-86 | Reordering the input never changes the session count. |
| `TimeEstimator.SessionCountOfSorted` | codetime/time_estimator.py:14-21 | On sorted non-empty input the count is 1 plus the neighbouring gaps strictly above the threshold. |
| `TimeEstimator.SingleSession` | codetime/time_estimator.py:19 | Sorted timestamps whose gaps are all at most the threshold form one session. A gap exactly equal to the threshold does not split. |
| `TimeEstimator.DuplicatesFormOneSession` | cli/codetime_waster.py:80-84 | For a non-negative session gap, any number of identical timestamps is one session: a gap of zero never splits. |
| `TimeEstimator.TwoTimestamps` | cli/codetime_waster.py:82 | Two timestamps, in either order, are two sessions exactly when they are strictly more than the threshold apart. |
| `TimeEstimator.PartitionSize` | codetime/time_estimator.py:14-21 | Any cut of the sorted timeline into non-empty blocks has exactly 1 + splits blocks, if gaps inside a block are within the threshold and gaps between blocks exceed it. |
| `TimeEstimator.BlocksPartition` | codetime/time_estimator.py:17-21 | Cutting the timeline at every gap above the threshold yields such a cut into sessions. |
| `TimeEstimator.SessionCountIsBlockCount` | codetime/time_estimator.py:3-23 | The reported count is the number of sessions in any valid cut of the sorted timestamps. |
| `TimeEstimator.EstimateTotalTime` | codetime/time_estimator.py:25-31 | The result is within a third of a hundredth of an hour of `session_count * avg / 60` hours, so it is that value rounded to two decimals. |
| `TimeEstimator.NearestHundredthUnique` | cli/codetime_waster.py:88-90 | No other number of hundredths is that close, so the rounding is determined. |
| `TimeEstimator.EstimateMonotone` | codetime/time_estimator.py:29-30 | For non-negative inputs the estimate is non-negative and never decreases as the session count grows. |
| `Text.Capitalize` | codetime/fun_converter.py:27 | `capitalize()` keeps the length, upper-cases the first character and lower-cases every other one. |
| `Text.CapitalizeIdempotent` | codetime/fun_converter.py:27 | Capitalizing an already capitalized name changes nothing. |
| `Text.NatToString` | codetime/fun_converter.py:27 | The units are rendered as at least one decimal digit, with no leading zero except for 0 itself. |
| `Text.NatToStringRoundTrip` | codetime/fun_converter.py:27 | Reading the rendered digits back gives the units. |
| `Text.IntToString` | cli/codetime_waster.py:114 | An integer renders with a leading minus sign exactly when it is negative. |
| `FunConverter.LoadActivities` | codetime/fun_converter.py:5-12 | A mode whose `data/activities_<mode>.json` is missing yields `[]`; when the file exists, the catalog is exactly its parsed contents. `FunConverter.MissingCatalogGivesNoLines` carries this through a whole call. |
| `FunConverter.Line` | codetime/fun_converter.py:27 | A line is at least as long as its parts, starts with "- " and ends with " times". `FunConverter.LineShowsUnits` shows that the units can be read back from it. |
| `FunConverter.Walk` | codetime/fun_converter.py:21-31 | The loop over the shuffled catalog, from any point of it. A `ZeroDivisionError` names an entry of the remaining catalog with cost zero. `FunConverter.WalkBound`, `FunConverter.WalkDistinct`, `FunConverter.WalkInOrder`, `FunConverter.WalkFirstFit`, `FunConverter.WalkComplete`, `FunConverter.WalkPrefix` and `FunConverter.WalkEmitsFirstFits` state what it guarantees. `WalkEmitsFirstFits` fixes exactly which lines it emits and in what order. |
| `FunConverter.FloorDiv` | codetime/fun_converter.py:25 | `total_hours // hours` is the floor of the quotient, for positive and negative costs alike. |
| `FunConverter.ConvertTimeToActivities` | codetime/fun_converter.py:14-33 | The loop's result equals the walk specification for the shuffled catalog. There are at most `activity_count` lines, or at most one when it is below 1. A `ZeroDivisionError` names a zero-cost entry of the catalog. |
| `FunConverter.WalkBound` | codetime/fun_converter.py:30-31 | From any point below the limit, the walk ends with at most `max(activity_count, 1)` lines. |
| `FunConverter.EmissionsBounded` | cli/codetime_waster.py:117-118 | A whole call never emits more than `activity_count` lines when `activity_count >= 1`. |
| `FunConverter.WalkDistinct` | codetime/fun_converter.py:22-28 | A used name is skipped and only an unused one is added, so names stay pairwise distinct. |
| `FunConverter.EmissionsDistinct` | cli/codetime_waster.py:109-115 | No activity name appears in two lines of one result. |
| `FunConverter.WalkInOrder` | codetime/fun_converter.py:21-28 | What the walk adds is a subsequence of the candidate values of the visited entries (name and `floor(total_hours / hours)`), in visiting order, each with units at least 1. This is stated on values; `FunConverter.WalkEmitsFirstFits` ties each line to the entry that emits it. |
| `FunConverter.EmissionsInOrder` | cli/codetime_waster.py:112 | For a whole call, the lines are a subsequence of the candidate values of the shuffled catalog, with units `floor(total_hours / hours) >= 1`. `FunConverter.EmissionsAreFirstFits` gives the exact lines. |
| `FunConverter.WalkFirstFit` | codetime/fun_converter.py:21-28 | Each line the walk adds has a name not used before, and comes from the first entry of that name whose units are positive. Every earlier entry of that name has a non-zero cost and fits zero times. |
| `FunConverter.EmittedFirstFit` | cli/codetime_waster.py:108-115 | For a whole call, each line is the candidate of the first entry in the shuffled catalog with that name and positive units, not of any later entry of the same name. |
| `FunConverter.WalkPrefix` | codetime/fun_converter.py:21-31 | When both walks succeed, the walk with a lower `activity_count` emits the first lines of the walk with a higher one. The limit only decides where the walk stops (lines 30-31), never which entries give lines before that. |
| `FunConverter.WalkEmitsFirstFits` | codetime/fun_converter.py:21-31 | Against an independent reference, the candidates of the entries that are the first fitting entry of a name not yet used, in catalog order: the walk adds a prefix of them, and all of them when it ends below the limit. Duplicates (line 22) and entries that fit zero times (line 26) are thus placed exactly. |
| `FunConverter.EmissionsAreFirstFits` | codetime/fun_converter.py:14-33 | For one call with `activity_count >= 1`, the lines are exactly the first `min(activity_count, n)` of the n first-fit lines of the shuffled catalog. Below 1, they are the first such line or none. |
| `FunConverter.EmissionsPrefix` | cli/codetime_waster.py:108-118 | For one call, the lines under a lower `activity_count` are a prefix of the lines under a higher one. |
| `FunConverter.WalkComplete` | codetime/fun_converter.py:21-33 | If the walk ends below the limit, every name with an entry that fits at least once has been emitted. |
| `FunConverter.NoZeroCostNoError` | codetime/fun_converter.py:25 | Without a zero-cost entry the call never raises `ZeroDivisionError`. |
| `FunConverter.EmittedNamesFit` | codetime/fun_converter.py:25-28 | Every emitted name has an entry that fits at least once. So there are no more lines than such names. |
| `FunConverter.PositiveNamesPermutation` | codetime/fun_converter.py:16 | Shuffling does not change which names have an entry that fits. |
| `FunConverter.EmittedNamesShuffleIndependent` | codetime/fun_converter.py:15-33 | When fewer names fit than `activity_count`, every shuffle emits exactly those names. The shuffle decides the order of the lines and, for a name listed twice, which entry's units are shown. |
| `FunConverter.LineShowsUnits` | codetime/fun_converter.py:27 | A line starts with "- ", ends with " times", and its units can be read back from the digits before " times". |
| `FunConverter.MissingCatalogGivesNoLines` | codetime/fun_converter.py:5-15 | A mode without a catalog file yields an empty list of lines, not an error. |
| `Scenarios.EstimateExamples` | codetime/time_estimator.py:29-31 | 0 sessions give 0 hours. 4 sessions of 30 minutes give 2.00 hours. |
| `Scenarios.SessionExample` | cli/codetime_waster.py:80-84 | Gaps of 10 and 190 minutes under a 60-minute threshold make 2 sessions. |
| `Scenarios.MovieAndBookExample` | codetime/fun_converter.py:21-33 | 2.00 hours against a 2-hour movie and a 1-hour book give "- Watch a movie 1 times" then "- Read a book 2 times". |
| `Scenarios.ZeroUnitsLeaveNameFree` | codetime/fun_converter.py:26-28 | An entry that fits zero times does not mark its name used, so a later entry with that name is emitted. |
| `Scenarios.ZeroCostDependsOnOrder` | codetime/fun_converter.py:22-25 | A zero-cost entry raises when reached first, but is skipped without raising once its name is used. |
| `Scenarios.ZeroActivityCount` | cli/codetime_waster.py:117-118 | With `activity_count` 0 the walk stops after the first entry it does not skip. |
| `Scenarios.CaseDistinctNamesShareALine` | codetime/fun_converter.py:22-28 | Names are compared before capitalizing, so "nap" and "Nap" both get lines, and both read "- Nap 2 times". |

## Left out

- Fetching commits and repositories from the hosting API (`fetch_commits`, `get_user_repos` in `codetime/github_api.py` and `cli/codetime_waster.py:14-68`): HTTP, pagination and status handling. `codetime/github_api.py` is not part of this model.
- Parsing ISO 8601 dates and time zones: timestamps arrive as whole seconds. Sub-second precision of `timedelta` is not represented.
- Reading and parsing the catalog JSON file, and the warning `load_activities` prints: the file system is a map from path to parsed catalog. A malformed item (a missing `"activity"` or `"hours"` key, which raises `KeyError`) is not represented.
- Config file and report writing (`codetime/utils.py`, `cli/codetime_waster.py:124-148`), argument parsing and `main` (`main.py`, `cli/codetime_waster.py:152-217`): file I/O and wiring.
- `random.shuffle`: the shuffled order is a parameter that must be a permutation of the loaded catalog.
- Floating point: hours and costs are integer hundredths of an hour. A catalog cost that is not a whole number of hundredths cannot be expressed. A fractional `session_gap_minutes` or `avg_minutes_per_session` cannot be expressed either.
- FunConverter.FloorDiv: units are the exact floor of the quotient of two whole numbers of hundredths. Python's float `//` floors the quotient of the binary values, and that can be one lower when a cost is not exactly representable in binary: `0.5 // 0.1 == 4.0` and `1 // 0.1 == 9.0`, where the model gives 5 and 10.
- TimeEstimator.EstimateTotalTime: states exact rational rounding to two decimals. It does not model the binary float value Python returns, nor how it is printed (`2.0`).
- Text.Capitalize: maps ASCII letters only. Python's `str.capitalize()` also maps other Unicode letters and title-cases the first character.

=== FILE: fun_converter.dfy ===
/**
 * Activity conversion (codetime/fun_converter.py, and its copy in
 * cli/codetime_waster.py): turn an estimated duration into lines such as
 * "- Watch a movie 1 times", walking a shuffled activity catalog.
 *
 * Durations and catalog costs are integer hundredths of an hour, so
 * `int(total_hours // item["hours"])` is Python's floor division of the two.
 * The catalog files are a map from path to parsed catalog; the shuffle is
 * the caller-supplied order in which the loaded catalog is walked.
 */
module FunConverter {
  import opened Text

  /** One catalog item: an activity name and its cost in hundredths of an hour. */
  datatype Entry = Entry(activity: string, hours: int)

  /** One emitted line, before formatting: the activity and how many times it fits. */
  datatype Emission = Emission(activity: string, units: int)

  /** A finished walk, or the `ZeroDivisionError` raised at an entry that costs nothing. */
  datatype Result<T> = Ok(value: T) | ZeroDivisionError(activity: string)

  // ----- Loading the catalog -----

  function ActivityPath(mode: string): string
  {
    "data/activities_" + mode + ".json"
  }

  /** `load_activities`: the parsed file for `mode`, or `[]` when there is no such file. */
  function LoadActivities(mode: string, files: map<string, seq<Entry>>): (catalog: seq<Entry>)
    ensures ActivityPath(mode) !in files ==> catalog == []
    ensures ActivityPath(mode) in files ==> catalog == files[ActivityPath(mode)]
  {
    if ActivityPath(mode) in files then files[ActivityPath(mode)] else []
  }

  // ----- Units and lines -----

  /** Python's `a // b` on integers: rounds toward negative infinity. */
  function FloorDiv(a: int, b: int): (q: int)
    requires b != 0
    ensures b > 0 ==> b * q <= a < b * q + b
    ensures b < 0 ==> b * q + b < a <= b * q
  {
    if b > 0 then a / b else (-a) / (-b)
  }

  /** How many times an entry fits into `totalHours`. */
  function Units(totalHours: int, e: Entry): int
    requires e.hours != 0
  {
    FloorDiv(totalHours, e.hours)
  }

  /** `f"- {activity.capitalize()} {units} times"`. */
  function Line(e: Emission): (line: string)
    ensures |line| >= 2 + |e.activity| + 1 + 1 + 6
    ensures line[..2] == "- " && line[|line| - 6..] == " times"
  {
    "- " + Capitalize(e.activity) + " " + IntToString(e.units) + " times"
  }

  /** One line per emission, in order. */
  function Lines(emitted: seq<Emission>): seq<string>
  {
    seq(|emitted|, k requires 0 <= k < |emitted| => Line(emitted[k]))
  }

  /** The activity names already emitted: the source's `used_activities`. */
  function Names(emitted: seq<Emission>): set<string>
  {
    set k | 0 <= k < |emitted| :: emitted[k].activity
  }

  lemma NamesAppend(emitted: seq<Emission>, e: Emission)
    ensures Names(emitted + [e]) == Names(emitted) + {e.activity}
  {
    var s := emitted + [e];
    assert s[|emitted|] == e;
    forall a | a in Names(emitted) ensures a in Names(s) {
      var k :| 0 <= k < |emitted| && emitted[k].activity == a;
      assert s[k] == emitted[k];
    }
  }

  lemma LinesAppend(emitted: seq<Emission>, e: Emission)
    ensures Lines(emitted + [e]) == Lines(emitted) + [Line(e)]
  {
  }

  // ----- The walk -----

  /**
   * The loop of `convert_time_to_activities` from the point where `items`
   * remain and `emitted` has been produced. An already used name is skipped
   * (without the length check); otherwise the entry's units are computed,
   * a line is emitted when they are positive, and the walk stops once there
   * are `activityCount` lines.
   */
  function Walk(totalHours: int, activityCount: int, items: seq<Entry>, emitted: seq<Emission>)
    : (r: Result<seq<Emission>>)
    ensures r.ZeroDivisionError? ==> Entry(r.activity, 0) in items
    decreases |items|
  {
    if items == [] then Ok(emitted)
    else if items[0].activity in Names(emitted) then
      Walk(totalHours, activityCount, items[1..], emitted)
    else if items[0].hours == 0 then ZeroDivisionError(items[0].activity)
    else
      var units := Units(totalHours, items[0]);
      var next := if units > 0 then emitted + [Emission(items[0].activity, units)] else emitted;
      if |next| >= activityCount then Ok(next)
      else Walk(totalHours, activityCount, items[1..], next)
  }

  /** What one call emits for the catalog in the order it is walked. */
  function Emissions(totalHours: int, activityCount: int, shuffled: seq<Entry>): Result<seq<Emission>>
  {
    Walk(totalHours, activityCount, shuffled, [])
  }

  /** The lines of a walk, or its error. */
  function Render(r: Result<seq<Emission>>): Result<seq<string>>
  {
    match r
    case Ok(emitted) => Ok(Lines(emitted))
    case ZeroDivisionError(a) => ZeroDivisionError(a)
  }

  /**
   * `convert_time_to_activities(total_hours, activity_count, mode)`: load the
   * catalog for `mode`, walk it in the shuffled order `shuffled` (any
   * permutation of the loaded catalog) and collect the lines.
   */
  method ConvertTimeToActivities(totalHours: int, activityCount: int, mode: string,
                                 files: map<string, seq<Entry>>, shuffled: seq<Entry>)
      returns (r: Result<seq<string>>)
    requires multiset(shuffled) == multiset(LoadActivities(mode, files))
    ensures r == Render(Emissions(totalHours, activityCount, shuffled))
    ensures r.Ok? && activityCount >= 1 ==> |r.value| <= activityCount
    ensures r.Ok? && activityCount < 1 ==> |r.value| <= 1
    ensures r.ZeroDivisionError? ==> Entry(r.activity, 0) in shuffled
  {
    var results: seq<string> := [];
    var used: set<string> := {};
    ghost var emitted: seq<Emission> := [];
    var i := 0;
    while i < |shuffled|
      invariant 0 <= i <= |shuffled|
      invariant used == Names(emitted)
      invariant results == Lines(emitted)
      invariant Walk(totalHours, activityCount, shuffled, []) == Walk(totalHours, activityCount, shuffled[i..], emitted)
      invariant i == 0 ==> emitted == []
      invariant i > 0 ==> |emitted| < activityCount
    {
      var item := shuffled[i];
      assert shuffled[i..][1..] == shuffled[i + 1..];
      if item.activity in used {
        i := i + 1;
        continue;
      }
      if item.hours == 0 {
        r := ZeroDivisionError(item.activity);
        WalkBound(totalHours, activityCount, shuffled, []);
        return;
      }
      var units := FloorDiv(totalHours, item.hours);
      if units > 0 {
        var e := Emission(item.activity, units);
        NamesAppend(emitted, e);
        LinesAppend(emitted, e);
        results := results + [Line(e)];
        used := used + {item.activity};
        emitted := emitted + [e];
      }
      if |results| >= activityCount {
        r := Ok(results);
        WalkBound(totalHours, activityCount, shuffled, []);
        return;
      }
      i := i + 1;
    }
    r := Ok(results);
    WalkBound(totalHours, activityCount, shuffled, []);
  }

  // ----- What the walk guarantees -----

  function Max(a: int, b: int): int { if a < b then b else a }

  function Min(a: int, b: int): int { if a < b then a else b }

  /**
   * The walk never emits more than `activityCount` lines, or one line when
   * `activityCount` is below 1 (the length check follows the first entry
   * not skipped); a `ZeroDivisionError` names an entry that costs nothing.
   */
  lemma {:induction false} WalkBound(totalHours: int, activityCount: int, items: seq<Entry>, emitted: seq<Emission>)
    requires |emitted| < Max(activityCount, 1)
    ensures Walk(totalHours, activityCount, items, emitted).Ok? ==>
              |Walk(totalHours, activityCount, items, emitted).value| <= Max(activityCount, 1)
    ensures Walk(totalHours, activityCount, items, emitted).ZeroDivisionError? ==>
              Entry(Walk(totalHours, activityCount, items, emitted).activity, 0) in items
    decreases |items|
  {
    if items != [] {
      WalkBound(totalHours, activityCount, items[1..], emitted);
      if items[0].activity !in Names(emitted) && items[0].hours != 0 {
        var units := Units(totalHours, items[0]);
        var next := if units > 0 then emitted + [Emission(items[0].activity, units)] else emitted;
        if |next| < activityCount {
          WalkBound(totalHours, activityCount, items[1..], next);
        }
      }
      if Walk(totalHours, activityCount, items, emitted).ZeroDivisionError? {
        assert items == [items[0]] + items[1..];
      }
    }
  }

  /** No activity name is emitted twice. */
  predicate DistinctNames(emitted: seq<Emission>)
  {
    forall i, j :: 0 <= i < j < |emitted| ==> emitted[i].activity != emitted[j].activity
  }

  /** What an entry would emit if it were reached: its name and its units (none for a zero cost). */
  function Candidate(totalHours: int, e: Entry): Emission
  {
    Emission(e.activity, if e.hours == 0 then 0 else Units(totalHours, e))
  }

  function Candidates(totalHours: int, items: seq<Entry>): (c: seq<Emission>)
    ensures |c| == |items|
    ensures forall k :: 0 <= k < |items| ==> c[k] == Candidate(totalHours, items[k])
  {
    seq(|items|, k requires 0 <= k < |items| => Candidate(totalHours, items[k]))
  }

  /** `a` is `b` with some elements left out, the rest kept in order. */
  predicate IsSubsequence(a: seq<Emission>, b: seq<Emission>)
    decreases |b|
  {
    a == [] || (b != [] && ((a[0] == b[0] && IsSubsequence(a[1..], b[1..])) || IsSubsequence(a, b[1..])))
  }

  /** The names of catalog entries whose cost fits at least once into `totalHours`. */
  function PositiveNames(totalHours: int, items: seq<Entry>): set<string>
  {
    set e | e in items && e.hours != 0 && Units(totalHours, e) > 0 :: e.activity
  }

  /** The walk only ever appends to what was already emitted. */
  lemma {:induction false} WalkExtends(totalHours: int, activityCount: int, items: seq<Entry>, emitted: seq<Emission>)
    ensures Walk(totalHours, activityCount, items, emitted).Ok? ==>
              var r := Walk(totalHours, activityCount, items, emitted).value;
              |emitted| <= |r| && r[..|emitted|] == emitted
    decreases |items|
  {
    if items != [] {
      WalkExtends(totalHours, activityCount, items[1..], emitted);
      if items[0].activity !in Names(emitted) && items[0].hours != 0 {
        var units := Units(totalHours, items[0]);
        var next := if units > 0 then emitted + [Emission(items[0].activity, units)] else emitted;
        WalkExtends(totalHours, activityCount, items[1..], next);
        assert next[..|emitted|] == emitted;
      }
    }
  }

  /** Names stay distinct: an entry whose name is used is skipped, and only an unused one is added. */
  lemma {:induction false} WalkDistinct(totalHours: int, activityCount: int, items: seq<Entry>, emitted: seq<Emission>)
    requires DistinctNames(emitted)
    ensures Walk(totalHours, activityCount, items, emitted).Ok? ==>
              DistinctNames(Walk(totalHours, activityCount, items, emitted).value)
    decreases |items|
  {
    if items != [] {
      if items[0].activity in Names(emitted) {
        WalkDistinct(totalHours, activityCount, items[1..], emitted);
      } else if items[0].hours != 0 {
        var e := Emission(items[0].activity, Units(totalHours, items[0]));
        if e.units > 0 {
          var next := emitted + [e];
          forall i, j | 0 <= i < j < |next| ensures next[i].activity != next[j].activity {
            if j == |emitted| {
              assert next[i] == emitted[i];
              assert emitted[i].activity in Names(emitted);
            }
          }
          WalkDistinct(totalHours, activityCount, items[1..], next);
        } else {
          WalkDistinct(totalHours, activityCount, items[1..], emitted);
        }
      }
    }
  }

  /**
   * Every line added by the walk is an entry of `items`, taken in order,
   * with units `floor(totalHours / hours)` of at least 1.
   */
  lemma {:induction false} WalkInOrder(totalHours: int, activityCount: int, items: seq<Entry>, emitted: seq<Emission>)
    ensures Walk(totalHours, activityCount, items, emitted).Ok? ==>
              var r := Walk(totalHours, activityCount, items, emitted).value;
              |emitted| <= |r|
              && IsSubsequence(r[|emitted|..], Candidates(totalHours, items))
              && forall k :: |emitted| <= k < |r| ==> r[k].units >= 1
    decreases |items|
  {
    WalkExtends(totalHours, activityCount, items, emitted);
    if items != [] {
      var c := Candidates(totalHours, items);
      assert Candidates(totalHours, items[1..]) == c[1..];
      if items[0].activity in Names(emitted) || items[0].hours == 0 {
        WalkInOrder(totalHours, activityCount, items[1..], emitted);
      } else {
        var e := Emission(items[0].activity, Units(totalHours, items[0]));
        var next := if e.units > 0 then emitted + [e] else emitted;
        WalkInOrder(totalHours, activityCount, items[1..], next);
        WalkExtends(totalHours, activityCount, items[1..], next);
        if Walk(totalHours, activityCount, items, emitted).Ok? {
          var r := Walk(totalHours, activityCount, items, emitted).value;
          if e.units > 0 {
            var rest := r[|next|..];
            assert r[|emitted|..] == [e] + rest;
            assert c[0] == e;
            assert ([e] + rest)[1..] == rest;
          }
        }
      }
    } else {
      assert Walk(totalHours, activityCount, items, emitted).value[|emitted|..] == [];
    }
  }

  /**
   * When the walk ends below the limit it has not stopped early, so every
   * name with an entry that fits at least once has been emitted.
   */
  lemma {:induction false} WalkComplete(totalHours: int, activityCount: int, items: seq<Entry>, emitted: seq<Emission>)
    ensures var w := Walk(totalHours, activityCount, items, emitted);
            w.Ok? && |w.value| < activityCount ==>
              Names(emitted) <= Names(w.value) && PositiveNames(totalHours, items) <= Names(w.value)
    decreases |items|
  {
    var w := Walk(totalHours, activityCount, items, emitted);
    if items != [] && w.Ok? && |w.value| < activityCount {
      var x := items[0];
      var next := if x.activity in Names(emitted) || x.hours == 0 || Units(totalHours, x) <= 0 then emitted
                  else emitted + [Emission(x.activity, Units(totalHours, x))];
      if next != emitted {
        NamesAppend(emitted, Emission(x.activity, Units(totalHours, x)));
      }
      WalkComplete(totalHours, activityCount, items[1..], next);
      assert items == [x] + items[1..];
      forall a | a in PositiveNames(totalHours, items) ensures a in Names(w.value) {
        var e :| e in items && e.hours != 0 && Units(totalHours, e) > 0 && e.activity == a;
        if e != x {
          assert e in items[1..];
        }
      }
    }
  }

  /**
   * A lower `activity_count` only cuts the walk short: its lines are the
   * first lines of the walk with a higher limit. With `WalkComplete` for a
   * limit that is never reached, this fixes which lines a walk emits.
   */
  lemma {:induction false} WalkPrefix(totalHours: int, c1: int, c2: int, items: seq<Entry>, emitted: seq<Emission>)
    requires c1 <= c2
    ensures var w1, w2 := Walk(totalHours, c1, items, emitted), Walk(totalHours, c2, items, emitted);
            w1.Ok? && w2.Ok? ==> |w1.value| <= |w2.value| && w2.value[..|w1.value|] == w1.value
    decreases |items|
  {
    if items != [] {
      var x := items[0];
      if x.activity in Names(emitted) {
        WalkPrefix(totalHours, c1, c2, items[1..], emitted);
      } else if x.hours != 0 {
        var units := Units(totalHours, x);
        var next := if units > 0 then emitted + [Emission(x.activity, units)] else emitted;
        if |next| < c1 {
          WalkPrefix(totalHours, c1, c2, items[1..], next);
        } else if |next| < c2 {
          WalkExtends(totalHours, c2, items[1..], next);
        }
      }
    }
  }

  // ----- The same guarantees for one call -----

  /** No activity name appears in two lines of one result. */
  lemma EmissionsDistinct(totalHours: int, activityCount: int, shuffled: seq<Entry>)
    ensures Emissions(totalHours, activityCount, shuffled).Ok? ==>
              DistinctNames(Emissions(totalHours, activityCount, shuffled).value)
  {
    WalkDistinct(totalHours, activityCount, shuffled, []);
  }

  /**
   * The lines follow the walking order, one per emitting entry, each with
   * that entry's name and `floor(totalHours / hours) >= 1` units.
   */
  lemma EmissionsInOrder(totalHours: int, activityCount: int, shuffled: seq<Entry>)
    ensures Emissions(totalHours, activityCount, shuffled).Ok? ==>
              var r := Emissions(totalHours, activityCount, shuffled).value;
              IsSubsequence(r, Candidates(totalHours, shuffled))
              && forall k :: 0 <= k < |r| ==> r[k].units >= 1
  {
    WalkInOrder(totalHours, activityCount, shuffled, []);
  }

  /**
   * Entry `j` is the first entry of its name that fits at least once: every
   * earlier entry with that name costs something and fits zero times.
   */
  predicate FirstFitAt(totalHours: int, items: seq<Entry>, j: int)
  {
    0 <= j < |items| && items[j].hours != 0 && Units(totalHours, items[j]) > 0
    && forall i :: 0 <= i < j && items[i].activity == items[j].activity ==>
         items[i].hours != 0 && Units(totalHours, items[i]) <= 0
  }

  /** `e` is what the first fitting entry of its name in `items` emits. */
  predicate FromFirstFit(totalHours: int, items: seq<Entry>, e: Emission)
  {
    exists j :: 0 <= j < |items| && FirstFitAt(totalHours, items, j) && e == Candidate(totalHours, items[j])
  }

  /** Putting in front an entry that is not a fitting one of the same name keeps a first fit first. */
  lemma FirstFitShift(totalHours: int, items: seq<Entry>, e: Emission)
    requires items != []
    requires FromFirstFit(totalHours, items[1..], e)
    requires items[0].activity == e.activity ==> items[0].hours != 0 && Units(totalHours, items[0]) <= 0
    ensures FromFirstFit(totalHours, items, e)
  {
    var j :| 0 <= j < |items[1..]| && FirstFitAt(totalHours, items[1..], j) && e == Candidate(totalHours, items[1..][j]);
    assert items[j + 1] == items[1..][j];
    forall i | 0 < i < j + 1 && items[i].activity == items[j + 1].activity
      ensures items[i].hours != 0 && Units(totalHours, items[i]) <= 0
    {
      assert items[i] == items[1..][i - 1];
    }
    assert FirstFitAt(totalHours, items, j + 1);
  }

  /** Every emission after the first `n` of `r` comes from a first fit in `items` and has a name outside `used`. */
  predicate AddedFromFirstFits(totalHours: int, items: seq<Entry>, used: set<string>, r: seq<Emission>, n: nat)
  {
    forall k :: n <= k < |r| ==> r[k].activity !in used && FromFirstFit(totalHours, items, r[k])
  }

  /** The step of `WalkFirstFit` for an entry that adds no line: it keeps the property. */
  lemma SkipKeepsFirstFits(totalHours: int, items: seq<Entry>, used: set<string>, r: seq<Emission>, n: nat)
    requires items != []
    requires AddedFromFirstFits(totalHours, items[1..], used, r, n)
    requires items[0].activity in used || (items[0].hours != 0 && Units(totalHours, items[0]) <= 0)
    ensures AddedFromFirstFits(totalHours, items, used, r, n)
  {
    forall k | n <= k < |r| ensures FromFirstFit(totalHours, items, r[k]) {
      FirstFitShift(totalHours, items, r[k]);
    }
  }

  /** The step of `WalkFirstFit` for an entry that adds line `n`: it keeps the property. */
  lemma EmitKeepsFirstFits(totalHours: int, items: seq<Entry>, used: set<string>, r: seq<Emission>, n: nat)
    requires items != [] && items[0].hours != 0 && Units(totalHours, items[0]) > 0
    requires items[0].activity !in used
    requires n < |r| && r[n] == Candidate(totalHours, items[0])
    requires AddedFromFirstFits(totalHours, items[1..], used + {items[0].activity}, r, n + 1)
    ensures AddedFromFirstFits(totalHours, items, used, r, n)
  {
    assert FirstFitAt(totalHours, items, 0);
    forall k | n < k < |r| ensures FromFirstFit(totalHours, items, r[k]) {
      FirstFitShift(totalHours, items, r[k]);
    }
  }

  /**
   * Each line the walk adds comes from the first entry of its name that fits
   * at least once; its name was not emitted before the walk started.
   */
  lemma {:induction false} WalkFirstFit(totalHours: int, activityCount: int, items: seq<Entry>, emitted: seq<Emission>)
    ensures var w := Walk(totalHours, activityCount, items, emitted);
            w.Ok? ==> |emitted| <= |w.value| && AddedFromFirstFits(totalHours, items, Names(emitted), w.value, |emitted|)
    decreases |items|
  {
    WalkExtends(totalHours, activityCount, items, emitted);
    var w := Walk(totalHours, activityCount, items, emitted);
    if items != [] && w.Ok? {
      var x := items[0];
      if x.activity in Names(emitted) {
        assert w == Walk(totalHours, activityCount, items[1..], emitted);
        WalkFirstFit(totalHours, activityCount, items[1..], emitted);
        SkipKeepsFirstFits(totalHours, items, Names(emitted), w.value, |emitted|);
      } else if Units(totalHours, x) > 0 {
        var e := Emission(x.activity, Units(totalHours, x));
        var next := emitted + [e];
        NamesAppend(emitted, e);
        if |next| < activityCount {
          assert w == Walk(totalHours, activityCount, items[1..], next);
          WalkFirstFit(totalHours, activityCount, items[1..], next);
          WalkExtends(totalHours, activityCount, items[1..], next);
          assert w.value[..|next|] == next;
        }
        assert w.value[|emitted|] == e;
        EmitKeepsFirstFits(totalHours, items, Names(emitted), w.value, |emitted|);
      } else if |emitted| < activityCount {
        assert w == Walk(totalHours, activityCount, items[1..], emitted);
        WalkFirstFit(totalHours, activityCount, items[1..], emitted);
        SkipKeepsFirstFits(totalHours, items, Names(emitted), w.value, |emitted|);
      }
    }
  }

  /**
   * For one call, each line comes from the first entry of the shuffled catalog
   * with that name whose units are positive: an earlier entry of the same name
   * that fits zero times does not claim the name.
   */
  lemma EmittedFirstFit(totalHours: int, activityCount: int, shuffled: seq<Entry>)
    ensures var w := Emissions(totalHours, activityCount, shuffled);
            w.Ok? ==> forall k :: 0 <= k < |w.value| ==> FromFirstFit(totalHours, shuffled, w.value[k])
  {
    WalkFirstFit(totalHours, activityCount, shuffled, []);
  }

  /** For one call, the lines under a lower `activity_count` are the first lines under a higher one. */
  lemma EmissionsPrefix(totalHours: int, c1: int, c2: int, shuffled: seq<Entry>)
    requires c1 <= c2
    ensures var w1, w2 := Emissions(totalHours, c1, shuffled), Emissions(totalHours, c2, shuffled);
            w1.Ok? && w2.Ok? ==> |w1.value| <= |w2.value| && w2.value[..|w1.value|] == w1.value
  {
    WalkPrefix(totalHours, c1, c2, shuffled, []);
  }

  /** At most `activityCount` lines (one when `activityCount` is below 1). */
  lemma EmissionsBounded(totalHours: int, activityCount: int, shuffled: seq<Entry>)
    ensures Emissions(totalHours, activityCount, shuffled).Ok? ==>
              |Emissions(totalHours, activityCount, shuffled).value| <= Max(activityCount, 1)
  {
    WalkBound(totalHours, activityCount, shuffled, []);
  }

  // ----- Exactly which lines -----

  /** Entry `j` is the first fitting entry of a name outside `used`. */
  predicate FreshFitAt(totalHours: int, items: seq<Entry>, used: set<string>, j: int)
  {
    FirstFitAt(totalHours, items, j) && items[j].activity !in used
  }

  /**
   * The reference for what the walk emits: from position `lo` on, in catalog
   * order, the candidate of every entry that is the first fitting entry of a
   * name outside `used`.
   */
  function FreshFits(totalHours: int, items: seq<Entry>, used: set<string>, lo: nat): seq<Emission>
    decreases |items| - lo
  {
    if lo >= |items| then []
    else (if FreshFitAt(totalHours, items, used, lo) then [Candidate(totalHours, items[lo])] else [])
         + FreshFits(totalHours, items, used, lo + 1)
  }

  /** The first-fit lines of a catalog: one per name that fits, from its first fitting entry, in catalog order. */
  function FirstFitLines(totalHours: int, shuffled: seq<Entry>): seq<Emission>
  {
    FreshFits(totalHours, shuffled, {}, 0)
  }

  /** When every later position keeps its status, dropping the first entry shifts the fresh fits by one. */
  lemma {:induction false} FreshFitsShift(totalHours: int, items: seq<Entry>, used: set<string>, used': set<string>, lo: nat)
    requires items != [] && 1 <= lo
    requires forall j :: lo <= j < |items| ==>
               (FreshFitAt(totalHours, items, used, j) <==> FreshFitAt(totalHours, items[1..], used', j - 1))
    ensures FreshFits(totalHours, items, used, lo) == FreshFits(totalHours, items[1..], used', lo - 1)
    decreases |items| - lo
  {
    if lo < |items| {
      FreshFitsShift(totalHours, items, used, used', lo + 1);
      assert items[lo] == items[1..][lo - 1];
    }
  }

  /**
   * A later entry's first-fit status is unchanged by dropping the first entry,
   * unless the first entry has the same name and fits, in which case the later
   * one is no first fit.
   */
  lemma FirstFitAfterHead(totalHours: int, items: seq<Entry>, j: int)
    requires 1 <= j < |items|
    ensures items[0].activity != items[j].activity || (items[0].hours != 0 && Units(totalHours, items[0]) <= 0) ==>
              (FirstFitAt(totalHours, items, j) <==> FirstFitAt(totalHours, items[1..], j - 1))
    ensures items[0].activity == items[j].activity && items[0].hours != 0 && Units(totalHours, items[0]) > 0 ==>
              !FirstFitAt(totalHours, items, j)
  {
    assert items[j] == items[1..][j - 1];
    assert forall i :: 1 <= i < j ==> items[i] == items[1..][i - 1];
  }

  /** A first entry that gives no line leaves the fresh fits of the rest unchanged. */
  lemma FreshFitsSkip(totalHours: int, items: seq<Entry>, used: set<string>)
    requires items != []
    requires items[0].activity in used || (items[0].hours != 0 && Units(totalHours, items[0]) <= 0)
    ensures FreshFits(totalHours, items, used, 0) == FreshFits(totalHours, items[1..], used, 0)
  {
    forall j | 1 <= j < |items|
      ensures FreshFitAt(totalHours, items, used, j) <==> FreshFitAt(totalHours, items[1..], used, j - 1)
    {
      FirstFitAfterHead(totalHours, items, j);
      assert items[j] == items[1..][j - 1];
    }
    FreshFitsShift(totalHours, items, used, used, 1);
  }

  /** A first entry that gives a line heads the fresh fits, and its name is used for the rest. */
  lemma FreshFitsEmit(totalHours: int, items: seq<Entry>, used: set<string>)
    requires items != [] && items[0].activity !in used
    requires items[0].hours != 0 && Units(totalHours, items[0]) > 0
    ensures FreshFits(totalHours, items, used, 0)
         == [Candidate(totalHours, items[0])] + FreshFits(totalHours, items[1..], used + {items[0].activity}, 0)
  {
    forall j | 1 <= j < |items|
      ensures FreshFitAt(totalHours, items, used, j)
          <==> FreshFitAt(totalHours, items[1..], used + {items[0].activity}, j - 1)
    {
      FirstFitAfterHead(totalHours, items, j);
      assert items[j] == items[1..][j - 1];
    }
    FreshFitsShift(totalHours, items, used, used + {items[0].activity}, 1);
    assert FirstFitAt(totalHours, items, 0);
  }

  /**
   * The walk adds a prefix of the fresh first fits, in catalog order, and all
   * of them when it ends below the limit.
   */
  lemma {:induction false} WalkEmitsFirstFits(totalHours: int, activityCount: int, items: seq<Entry>, emitted: seq<Emission>)
    ensures var w, ff := Walk(totalHours, activityCount, items, emitted), FreshFits(totalHours, items, Names(emitted), 0);
            w.Ok? ==>
              |emitted| <= |w.value| <= |emitted| + |ff|
              && w.value == emitted + ff[..|w.value| - |emitted|]
              && (|w.value| < activityCount ==> w.value == emitted + ff)
    decreases |items|
  {
    var w := Walk(totalHours, activityCount, items, emitted);
    var used := Names(emitted);
    if items != [] && w.Ok? {
      var x := items[0];
      if x.activity in used {
        FreshFitsSkip(totalHours, items, used);
        WalkEmitsFirstFits(totalHours, activityCount, items[1..], emitted);
      } else {
        assert x.hours != 0;
        if Units(totalHours, x) > 0 {
          var e := Emission(x.activity, Units(totalHours, x));
          var next := emitted + [e];
          NamesAppend(emitted, e);
          FreshFitsEmit(totalHours, items, used);
          var ff' := FreshFits(totalHours, items[1..], Names(next), 0);
          if |next| < activityCount {
            assert w == Walk(totalHours, activityCount, items[1..], next);
            WalkEmitsFirstFits(totalHours, activityCount, items[1..], next);
            PrefixAfterHead(emitted, e, ff', w.value);
          } else {
            assert w.value == next;
            PrefixAfterHead(emitted, e, ff', w.value);
          }
        } else {
          FreshFitsSkip(totalHours, items, used);
          if |emitted| < activityCount {
            WalkEmitsFirstFits(totalHours, activityCount, items[1..], emitted);
          }
        }
      }
    }
  }

  /** Sequence step of `WalkEmitsFirstFits`: a prefix after `e` extends to a prefix starting with `e`. */
  lemma PrefixAfterHead(emitted: seq<Emission>, e: Emission, rest: seq<Emission>, r: seq<Emission>)
    requires |emitted| + 1 <= |r| <= |emitted| + 1 + |rest|
    requires r == (emitted + [e]) + rest[..|r| - |emitted| - 1]
    ensures r == emitted + ([e] + rest)[..|r| - |emitted|]
    ensures |r| - |emitted| == |rest| + 1 ==> r == emitted + ([e] + rest)
  {
    var m := |r| - |emitted| - 1;
    assert ([e] + rest)[..m + 1] == [e] + rest[..m];
    if m == |rest| {
      assert rest[..m] == rest;
    }
  }

  /**
   * The lines of one call are exactly the first `activity_count` first-fit
   * lines of the shuffled catalog (all of them when there are fewer); with
   * `activity_count` below 1 they are the first line or none.
   */
  lemma EmissionsAreFirstFits(totalHours: int, activityCount: int, shuffled: seq<Entry>)
    ensures var w, ff := Emissions(totalHours, activityCount, shuffled), FirstFitLines(totalHours, shuffled);
            w.Ok? ==>
              (activityCount >= 1 ==> w.value == ff[..Min(activityCount, |ff|)])
              && (activityCount < 1 ==> |w.value| <= 1 && w.value == ff[..|w.value|])
  {
    WalkEmitsFirstFits(totalHours, activityCount, shuffled, []);
    WalkBound(totalHours, activityCount, shuffled, []);
    assert Names([]) == {};
  }

  /** Without a zero-cost entry the walk never raises. */
  lemma {:induction false} NoZeroCostNoError(totalHours: int, activityCount: int, items: seq<Entry>, emitted: seq<Emission>)
    requires forall e :: e in items ==> e.hours != 0
    ensures Walk(totalHours, activityCount, items, emitted).Ok?
    decreases |items|
  {
    if items != [] {
      assert forall e :: e in items[1..] ==> e in items;
      var x := items[0];
      if x.activity !in Names(emitted) && Units(totalHours, x) > 0 {
        NoZeroCostNoError(totalHours, activityCount, items[1..], emitted + [Emission(x.activity, Units(totalHours, x))]);
      } else {
        NoZeroCostNoError(totalHours, activityCount, items[1..], emitted);
      }
    }
  }

  // ----- Order independence -----

  lemma SubsequenceMembers(a: seq<Emission>, b: seq<Emission>)
    requires IsSubsequence(a, b)
    ensures forall x :: x in a ==> x in b
    decreases |b|
  {
    if a != [] {
      if a[0] == b[0] && IsSubsequence(a[1..], b[1..]) {
        SubsequenceMembers(a[1..], b[1..]);
        assert a == [a[0]] + a[1..];
      } else {
        SubsequenceMembers(a, b[1..]);
      }
    }
  }

  /** Distinct names: one name per emission. */
  lemma {:induction false} DistinctNamesCount(emitted: seq<Emission>)
    requires DistinctNames(emitted)
    ensures |Names(emitted)| == |emitted|
  {
    if emitted != [] {
      var init := emitted[..|emitted| - 1];
      var e := emitted[|emitted| - 1];
      assert emitted == init + [e];
      NamesAppend(init, e);
      DistinctNamesCount(init);
    }
  }

  /** Every emitted name belongs to an entry that fits; so there are no more lines than such names. */
  lemma EmittedNamesFit(totalHours: int, activityCount: int, shuffled: seq<Entry>)
    ensures var r := Emissions(totalHours, activityCount, shuffled);
            r.Ok? ==> Names(r.value) <= PositiveNames(totalHours, shuffled)
                      && |r.value| <= |PositiveNames(totalHours, shuffled)|
  {
    var r := Emissions(totalHours, activityCount, shuffled);
    if r.Ok? {
      EmissionsInOrder(totalHours, activityCount, shuffled);
      EmissionsDistinct(totalHours, activityCount, shuffled);
      var c := Candidates(totalHours, shuffled);
      SubsequenceMembers(r.value, c);
      forall a | a in Names(r.value) ensures a in PositiveNames(totalHours, shuffled) {
        var k :| 0 <= k < |r.value| && r.value[k].activity == a;
        assert r.value[k] in c;
        var j :| 0 <= j < |c| && c[j] == r.value[k];
        assert shuffled[j] in shuffled;
      }
      DistinctNamesCount(r.value);
      SetSizeMonotone(Names(r.value), PositiveNames(totalHours, shuffled));
    }
  }

  lemma SetSizeMonotone(a: set<string>, b: set<string>)
    requires a <= b
    ensures |a| <= |b|
  {
    assert b == a + (b - a);
  }

  /** Reordering the catalog does not change which names have an entry that fits. */
  lemma PositiveNamesPermutation(totalHours: int, a: seq<Entry>, b: seq<Entry>)
    requires multiset(a) == multiset(b)
    ensures PositiveNames(totalHours, a) == PositiveNames(totalHours, b)
  {
    assert forall e :: e in a <==> e in multiset(a);
    assert forall e :: e in b <==> e in multiset(b);
  }

  /**
   * When fewer names fit than `activityCount` allows, every shuffle of the
   * catalog emits exactly the names that fit: the shuffle changes only the
   * order of the lines (and, for a name listed twice, which entry's units).
   */
  lemma EmittedNamesShuffleIndependent(totalHours: int, activityCount: int, catalog: seq<Entry>, shuffled: seq<Entry>)
    requires multiset(shuffled) == multiset(catalog)
    requires |PositiveNames(totalHours, catalog)| < activityCount
    ensures Emissions(totalHours, activityCount, shuffled).Ok? ==>
              Names(Emissions(totalHours, activityCount, shuffled).value) == PositiveNames(totalHours, catalog)
  {
    PositiveNamesPermutation(totalHours, catalog, shuffled);
    EmittedNamesFit(totalHours, activityCount, shuffled);
    WalkComplete(totalHours, activityCount, shuffled, []);
  }

  // ----- Lines, the catalog file, examples -----

  /**
   * A line has the shape "- <name> <units> times", and the units can be read
   * back from the digits just before " times", whatever the name contains.
   */
  lemma LineShowsUnits(e: Emission)
    requires e.units >= 0
    ensures var l := Line(e);
            |l| >= 9 && l[..2] == "- " && l[|l| - 6..] == " times"
            && DigitsValue(TrailingDigits(l[..|l| - 6])) == e.units
  {
    var l := Line(e);
    var head := "- " + Capitalize(e.activity);
    var digits := NatToString(e.units);
    assert l == head + [' '] + digits + " times";
    assert l[..|l| - 6] == head + [' '] + digits;
    TrailingDigitsAfter(head, ' ', digits);
    NatToStringRoundTrip(e.units);
  }

  /** A mode without a catalog file gives an empty list of lines, not an error. */
  lemma MissingCatalogGivesNoLines(totalHours: int, activityCount: int, mode: string,
                                   files: map<string, seq<Entry>>, shuffled: seq<Entry>)
    requires ActivityPath(mode) !in files
    requires multiset(shuffled) == multiset(LoadActivities(mode, files))
    ensures Render(Emissions(totalHours, activityCount, shuffled)) == Ok([])
  {
    assert |shuffled| == |multiset(shuffled)| == 0;
    assert Lines([]) == [];
  }
}

=== FILE: scenarios.dfy ===
/**
 * Worked examples, stated on the model.
 */
module Scenarios {
  import opened Sorting
  import opened Text
  import opened TimeEstimator
  import opened FunConverter

  /** No sessions, no time; four half-hour sessions are 2.00 hours. */
  lemma EstimateExamples(avgMinutesPerSession: int)
    ensures EstimateTotalTime(0, avgMinutesPerSession) == 0
    ensures EstimateTotalTime(4, 30) == 200
  {
  }

  /** Ten-minute then 190-minute gaps with a 60-minute threshold make two sessions. */
  lemma SessionExample(t0: int)
    ensures SessionCount([t0, t0 + 600, t0 + 12000], 60) == 2
  {
    var s := [t0, t0 + 600, t0 + 12000];
    assert Sorted(s);
    SessionCountOfSorted(s, 60);
    ExampleSplits(t0);
  }

  lemma ExampleSplits(t0: int)
    ensures Splits([t0, t0 + 600, t0 + 12000], 3600) == 1
  {
    var s := [t0, t0 + 600, t0 + 12000];
    assert s[..2] == [t0, t0 + 600];
    SplitsPair(t0, t0 + 600, 3600);
  }

  /** 2.00 hours against a 2-hour movie and a 1-hour book: each line once, in walking order. */
  lemma MovieAndBookExample(movieName: string, bookName: string)
    requires movieName == "watch a movie" && bookName == "read a book"
    ensures Render(Emissions(200, 10, [Entry(movieName, 200), Entry(bookName, 100)]))
         == Ok(["- Watch a movie 1 times", "- Read a book 2 times"])
  {
    TwoEntriesBothEmitted(200, movieName, 200, bookName, 100);
    MovieAndBookLines(movieName, bookName);
  }

  /** Two differently named entries that both fit give one line each, in catalog order. */
  lemma TwoEntriesBothEmitted(totalHours: int, a: string, aHours: int, b: string, bHours: int)
    requires a != b && aHours > 0 && bHours > 0
    requires totalHours / aHours >= 1 && totalHours / bHours >= 1
    ensures Emissions(totalHours, 10, [Entry(a, aHours), Entry(b, bHours)])
         == Ok([Emission(a, totalHours / aHours), Emission(b, totalHours / bHours)])
  {
    var first, second := Emission(a, totalHours / aHours), Emission(b, totalHours / bHours);
    var items := [Entry(a, aHours), Entry(b, bHours)];
    NamesAppend([], first);
    assert [] + [first] == [first];
    assert Units(totalHours, items[0]) == first.units && Units(totalHours, items[1]) == second.units;
    assert Walk(totalHours, 10, items[1..][1..], [first, second]) == Ok([first, second]);
    assert [first] + [second] == [first, second];
    assert Walk(totalHours, 10, items[1..], [first]) == Ok([first, second]);
  }

  lemma MovieAndBookLines(movieName: string, bookName: string)
    requires movieName == "watch a movie" && bookName == "read a book"
    ensures Lines([Emission(movieName, 1), Emission(bookName, 2)])
         == ["- Watch a movie 1 times", "- Read a book 2 times"]
  {
    CapitalizedNames(movieName, bookName);
    LinesOfCapitalized(movieName, bookName);
  }

  lemma CapitalizedNames(movieName: string, bookName: string)
    requires movieName == "watch a movie" && bookName == "read a book"
    ensures Capitalize(movieName) == "Watch a movie" && Capitalize(bookName) == "Read a book"
  {
    CapitalizedMovie(movieName);
    CapitalizedBook(bookName);
  }

  lemma CapitalizedMovie(movieName: string)
    requires movieName == "watch a movie"
    ensures Capitalize(movieName) == "Watch a movie"
  {
    CapitalizeLowerCase(movieName);
  }

  lemma CapitalizedBook(bookName: string)
    requires bookName == "read a book"
    ensures Capitalize(bookName) == "Read a book"
  {
    CapitalizeLowerCase(bookName);
  }

  lemma LinesOfCapitalized(movieName: string, bookName: string)
    requires Capitalize(movieName) == "Watch a movie" && Capitalize(bookName) == "Read a book"
    ensures Lines([Emission(movieName, 1), Emission(bookName, 2)])
         == ["- Watch a movie 1 times", "- Read a book 2 times"]
  {
    var movie, book := Emission(movieName, 1), Emission(bookName, 2);
    assert IntToString(1) == "1" && IntToString(2) == "2";
    MovieText();
    BookText();
    assert Lines([movie, book]) == [Line(movie), Line(book)];
  }

  lemma MovieText()
    ensures "- " + "Watch a movie" + " " + "1" + " times" == "- Watch a movie 1 times"
  {
  }

  lemma BookText()
    ensures "- " + "Read a book" + " " + "2" + " times" == "- Read a book 2 times"
  {
  }

  /**
   * An entry that fits zero times is not marked used, so a later entry of
   * the same name is still emitted; a used name is skipped after that.
   */
  lemma ZeroUnitsLeaveNameFree()
    ensures Emissions(200, 10, [Entry("nap", 500), Entry("nap", 100), Entry("nap", 50)])
         == Ok([Emission("nap", 2)])
  {
    var nap := Emission("nap", 2);
    var items := [Entry("nap", 500), Entry("nap", 100), Entry("nap", 50)];
    NamesAppend([], nap);
    assert [] + [nap] == [nap];
    assert Units(200, items[0]) == 0 && Units(200, items[1]) == 2;
    assert Walk(200, 10, items[1..][1..], [nap]) == Ok([nap]);
    assert Walk(200, 10, items[1..], []) == Ok([nap]);
  }

  /**
   * A zero-cost entry raises `ZeroDivisionError` when it is reached, but not
   * when its name was already used: whether the call fails depends on the
   * shuffle.
   */
  lemma ZeroCostDependsOnOrder()
    ensures Emissions(200, 10, [Entry("nap", 0), Entry("nap", 100)]) == ZeroDivisionError("nap")
    ensures Emissions(200, 10, [Entry("nap", 100), Entry("nap", 0)]) == Ok([Emission("nap", 2)])
  {
    var nap := Emission("nap", 2);
    NamesAppend([], nap);
    assert [] + [nap] == [nap];
    assert Walk(200, 10, [Entry("nap", 0)], [nap]) == Ok([nap]);
  }

  /** With `activity_count` 0 the length check stops the walk after the first entry. */
  lemma ZeroActivityCount()
    ensures Emissions(200, 0, [Entry("nap", 100), Entry("walk", 100)]) == Ok([Emission("nap", 2)])
  {
    assert [] + [Emission("nap", 2)] == [Emission("nap", 2)];
  }

  /**
   * Names are compared before capitalizing, so "nap" and "Nap" are two
   * activities that both render as "- Nap 2 times".
   */
  lemma CaseDistinctNamesShareALine()
    ensures Emissions(200, 10, [Entry("nap", 100), Entry("Nap", 100)])
         == Ok([Emission("nap", 2), Emission("Nap", 2)])
    ensures Line(Emission("nap", 2)) == Line(Emission("Nap", 2)) == "- Nap 2 times"
  {
    TwoEntriesBothEmitted(200, "nap", 100, "Nap", 100);
    assert Capitalize("nap") == "Nap" && Capitalize("Nap") == "Nap";
    assert IntToString(2) == "2";
  }
}

=== FILE: sorting.dfy ===
/**
 * Ascending sort of a list of integers, as Python's `list.sort()` performs it
 * on the caller's list of commit timestamps. `SortSeq` is the value-level
 * specification; `SortInPlace` is the in-place algorithm proved against it.
 */
module Sorting {

  /** Every element is at most every later element. */
  predicate Sorted(s: seq<int>)
  {
    forall i, j :: 0 <= i < j < |s| ==> s[i] <= s[j]
  }

  /** Puts `x` into `s` before the first element larger than it. */
  function Insert(x: int, s: seq<int>): (r: seq<int>)
    ensures multiset(r) == multiset(s) + multiset{x}
  {
    if s == [] || x <= s[0] then
      [x] + s
    else
      assert s == [s[0]] + s[1..];
      [s[0]] + Insert(x, s[1..])
  }

  /** Prepending a lower bound keeps a sequence sorted. */
  lemma SortedCons(h: int, t: seq<int>)
    requires Sorted(t)
    requires forall i :: 0 <= i < |t| ==> h <= t[i]
    ensures Sorted([h] + t)
  {
    var r := [h] + t;
    forall i, j | 0 <= i < j < |r| ensures r[i] <= r[j] {
      if i > 0 {
        assert r[i] == t[i - 1] && r[j] == t[j - 1];
      } else {
        assert r[j] == t[j - 1];
      }
    }
  }

  /** Inserting into a sorted sequence gives a sorted sequence. */
  lemma {:induction false} InsertSorted(x: int, s: seq<int>)
    requires Sorted(s)
    ensures Sorted(Insert(x, s))
  {
    if s == [] || x <= s[0] {
      SortedCons(x, s);
    } else {
      var tail := Insert(x, s[1..]);
      assert Sorted(s[1..]);
      InsertSorted(x, s[1..]);
      forall i | 0 <= i < |tail| ensures s[0] <= tail[i] {
        assert tail[i] in multiset(tail);
        assert tail[i] in multiset(s[1..]) || tail[i] == x;
        if tail[i] != x {
          var k :| 0 <= k < |s[1..]| && s[1..][k] == tail[i];
          assert s[k + 1] == tail[i];
        }
      }
      SortedCons(s[0], tail);
    }
  }

  /** Insertion sort on values: the sequence `list.sort()` leaves behind. */
  function SortSeq(s: seq<int>): (r: seq<int>)
    ensures Sorted(r)
    ensures multiset(r) == multiset(s)
    ensures |r| == |s|
  {
    if s == [] then []
    else
      assert s == [s[0]] + s[1..];
      InsertSorted(s[0], SortSeq(s[1..]));
      Insert(s[0], SortSeq(s[1..]))
  }

  /** A sorted sequence is determined by its multiset of elements. */
  lemma {:induction false} SortedUnique(a: seq<int>, b: seq<int>)
    requires Sorted(a) && Sorted(b)
    requires multiset(a) == multiset(b)
    ensures a == b
  {
    if a == [] {
      assert |b| == |multiset(b)| == 0;
    } else {
      assert |b| == |multiset(b)| == |multiset(a)| == |a|;
      var h := Head(a, b);
      assert a == [a[0]] + a[1..] && b == [b[0]] + b[1..];
      assert multiset(a) == multiset{h} + multiset(a[1..]);
      assert multiset(b) == multiset{h} + multiset(b[1..]);
      assert multiset(a[1..]) == multiset(a) - multiset{h} == multiset(b[1..]);
      SortedUnique(a[1..], b[1..]);
    }
  }

  /** Two non-empty sorted sequences with the same elements share their head. */
  lemma Head(a: seq<int>, b: seq<int>) returns (h: int)
    requires Sorted(a) && Sorted(b) && a != [] && b != []
    requires multiset(a) == multiset(b)
    ensures h == a[0] == b[0]
  {
    assert a[0] in multiset(b);
    var j :| 0 <= j < |b| && b[j] == a[0];
    assert b[0] in multiset(a);
    var k :| 0 <= k < |a| && a[k] == b[0];
    h := a[0];
  }

  /** Sorting is the identity on a sorted sequence. */
  lemma SortSeqOfSorted(s: seq<int>)
    requires Sorted(s)
    ensures SortSeq(s) == s
  {
    SortedUnique(SortSeq(s), s);
  }

  /** Two inputs with the same elements sort to the same sequence. */
  lemma SortSeqPermutation(a: seq<int>, b: seq<int>)
    requires multiset(a) == multiset(b)
    ensures SortSeq(a) == SortSeq(b)
  {
    SortedUnique(SortSeq(a), SortSeq(b));
  }

  /**
   * Sorts `a` ascending in place (insertion sort by adjacent swaps); the
   * result is exactly `SortSeq` of the old contents.
   */
  method SortInPlace(a: array<int>)
    modifies a
    ensures a[..] == SortSeq(old(a[..]))
  {
    var i := 0;
    while i < a.Length
      invariant 0 <= i <= a.Length
      invariant Sorted(a[..i])
      invariant multiset(a[..]) == multiset(old(a[..]))
    {
      SinkLast(a, i);
      i := i + 1;
    }
    assert a[..a.Length] == a[..];
    SortedUnique(a[..], SortSeq(old(a[..])));
  }

  /** Moves `a[i]` left into the sorted prefix `a[..i]`, leaving `a[..i+1]` sorted. */
  method SinkLast(a: array<int>, i: nat)
    requires i < a.Length
    requires Sorted(a[..i])
    modifies a
    ensures Sorted(a[..i + 1])
    ensures multiset(a[..]) == multiset(old(a[..]))
    ensures a[i + 1..] == old(a[i + 1..])
  {
    var j := i;
    while j > 0 && a[j - 1] > a[j]
      invariant 0 <= j <= i
      invariant forall k, l :: 0 <= k < l <= i && k != j && l != j ==> a[k] <= a[l]
      invariant forall l :: j < l <= i ==> a[j] < a[l]
      invariant 0 < j < i ==> a[j - 1] <= a[j + 1]
      invariant multiset(a[..]) == multiset(old(a[..]))
      invariant a[i + 1..] == old(a[i + 1..])
    {
      SwapAdjacent(a, j - 1);
      j := j - 1;
    }
  }

  /** Exchanges `a[k]` and `a[k+1]`. */
  method SwapAdjacent(a: array<int>, k: nat)
    requires k + 1 < a.Length
    modifies a
    ensures a[k] == old(a[k + 1]) && a[k + 1] == old(a[k])
    ensures forall m :: 0 <= m < a.Length && m != k && m != k + 1 ==> a[m] == old(a[m])
    ensures multiset(a[..]) == multiset(old(a[..]))
  {
    a[k], a[k + 1] := a[k + 1], a[k];
  }
}

=== FILE: text.dfy ===
/**
 * The two string operations the activity lines are built from: Python's
 * `str.capitalize()` (restricted to ASCII letters) and the decimal rendering
 * of an integer inside an f-string.
 */
module Text {

  predicate IsLowerAscii(c: char) { 'a' <= c <= 'z' }
  predicate IsUpperAscii(c: char) { 'A' <= c <= 'Z' }
  predicate IsDigit(c: char) { '0' <= c <= '9' }

  /** Upper-case form of an ASCII letter; other characters are unchanged. */
  function ToUpper(c: char): (u: char)
    ensures !IsLowerAscii(u)
    ensures IsLowerAscii(c) ==> u as int == c as int - 32
    ensures !IsLowerAscii(c) ==> u == c
  {
    if IsLowerAscii(c) then (c as int - 32) as char else c
  }

  /** Lower-case form of an ASCII letter; other characters are unchanged. */
  function ToLower(c: char): (l: char)
    ensures !IsUpperAscii(l)
    ensures IsUpperAscii(c) ==> l as int == c as int + 32
    ensures !IsUpperAscii(c) ==> l == c
  {
    if IsUpperAscii(c) then (c as int + 32) as char else c
  }

  function LowerAll(s: string): (r: string)
    ensures |r| == |s|
    ensures forall i :: 0 <= i < |s| ==> r[i] == ToLower(s[i])
  {
    if s == [] then [] else [ToLower(s[0])] + LowerAll(s[1..])
  }

  /** `str.capitalize()`: the first character upper-cased, every other one lower-cased. */
  function Capitalize(s: string): (r: string)
    ensures |r| == |s|
    ensures |s| > 0 ==> r[0] == ToUpper(s[0])
    ensures forall i :: 0 < i < |s| ==> r[i] == ToLower(s[i])
  {
    if s == [] then [] else [ToUpper(s[0])] + LowerAll(s[1..])
  }

  /** Capitalizing twice is the same as capitalizing once. */
  lemma CapitalizeIdempotent(s: string)
    ensures Capitalize(Capitalize(s)) == Capitalize(s)
  {
    var c := Capitalize(s);
    var cc := Capitalize(c);
    if s != [] {
      assert cc[0] == ToUpper(ToUpper(s[0])) == ToUpper(s[0]);
      forall i | 0 < i < |s| ensures cc[i] == c[i] {
        assert cc[i] == ToLower(ToLower(s[i]));
      }
    }
  }

  function DigitChar(d: nat): (c: char)
    requires d < 10
    ensures IsDigit(c)
    ensures c as int - '0' as int == d
  {
    ('0' as int + d) as char
  }

  /** Decimal digits of `n` without leading zeros, as `str(n)` renders a natural number. */
  function NatToString(n: nat): (r: string)
    ensures |r| >= 1
    ensures forall i :: 0 <= i < |r| ==> IsDigit(r[i])
    ensures r[0] == '0' ==> n == 0
    decreases n
  {
    if n < 10 then [DigitChar(n)] else NatToString(n / 10) + [DigitChar(n % 10)]
  }

  /** The number a string of decimal digits denotes. */
  function DigitsValue(s: string): nat
    requires forall i :: 0 <= i < |s| ==> IsDigit(s[i])
  {
    if s == [] then 0
    else
      assert IsDigit(s[|s| - 1]);
      DigitsValue(s[..|s| - 1]) * 10 + (s[|s| - 1] as int - '0' as int)
  }

  /** Reading back the digits `NatToString` writes gives the original number. */
  lemma {:induction false} NatToStringRoundTrip(n: nat)
    ensures DigitsValue(NatToString(n)) == n
    decreases n
  {
    if n >= 10 {
      var r := NatToString(n);
      assert r[..|r| - 1] == NatToString(n / 10);
      NatToStringRoundTrip(n / 10);
    }
  }

  /** `str(n)` for any integer: a minus sign before the digits of a negative number. */
  function IntToString(n: int): (r: string)
    ensures |r| >= 1
    ensures r[0] == '-' <==> n < 0
  {
    if n < 0 then "-" + NatToString(-n) else NatToString(n)
  }

  /** The longest run of digits at the end of `s`. */
  function TrailingDigits(s: string): (d: string)
    ensures |d| <= |s| && d == s[|s| - |d|..]
    ensures forall i :: 0 <= i < |d| ==> IsDigit(d[i])
  {
    if s == [] || !IsDigit(s[|s| - 1]) then []
    else TrailingDigits(s[..|s| - 1]) + [s[|s| - 1]]
  }

  /** Digits that follow a non-digit are exactly the trailing digit run. */
  lemma {:induction false} TrailingDigitsAfter(p: string, sep: char, d: string)
    requires !IsDigit(sep)
    requires forall i :: 0 <= i < |d| ==> IsDigit(d[i])
    ensures TrailingDigits(p + [sep] + d) == d
  {
    var s := p + [sep] + d;
    if d == [] {
      assert s[|s| - 1] == sep;
    } else {
      assert s[..|s| - 1] == p + [sep] + d[..|d| - 1];
      TrailingDigitsAfter(p, sep, d[..|d| - 1]);
      assert d == d[..|d| - 1] + [d[|d| - 1]];
    }
  }

  /** A string without upper-case letters only has its first character changed. */
  lemma CapitalizeLowerCase(s: string)
    requires s != []
    requires forall i :: 0 <= i < |s| ==> !IsUpperAscii(s[i])
    ensures Capitalize(s) == [ToUpper(s[0])] + s[1..]
  {
  }
}

=== FILE: time_estimator.dfy ===
/**
 * Session inference and duration estimate (codetime/time_estimator.py, and
 * its copy in cli/codetime_waster.py).
 *
 * A timestamp is a whole number of seconds. The session gap is given in
 * minutes, as the source's `timedelta(minutes=session_gap_minutes)`, and a
 * neighbouring pair of sorted timestamps starts a new session only when
 * their difference is STRICTLY greater than it. Durations are integer
 * hundredths of an hour: `estimate_total_time` rounds to two decimals.
 */
module TimeEstimator {
  import opened Sorting

  /** The session gap threshold in seconds. */
  function GapSeconds(sessionGapMinutes: int): int
  {
    sessionGapMinutes * 60
  }

  /** The number of neighbouring pairs in `s` whose difference exceeds `gap`. */
  function Splits(s: seq<int>, gap: int): (n: nat)
    ensures |s| > 0 ==> n < |s|
  {
    if |s| < 2 then 0
    else Splits(s[..|s| - 1], gap) + (if s[|s| - 1] - s[|s| - 2] > gap then 1 else 0)
  }

  /**
   * The number of sessions `group_commits_into_sessions` reports: none for
   * no timestamps, otherwise one plus the splits of the sorted timestamps.
   */
  function SessionCount(timestamps: seq<int>, sessionGapMinutes: int): (n: nat)
    ensures n == 0 <==> timestamps == []
    ensures n <= |timestamps|
  {
    if timestamps == [] then 0
    else 1 + Splits(SortSeq(timestamps), GapSeconds(sessionGapMinutes))
  }

  /**
   * Sorts the caller's timestamps ascending in place and counts sessions
   * along them. An empty array is left untouched and gives 0.
   */
  method GroupCommitsIntoSessions(timestamps: array<int>, sessionGapMinutes: int)
      returns (sessionCount: nat)
    modifies timestamps
    ensures old(timestamps[..]) == [] ==> sessionCount == 0 && timestamps[..] == []
    ensures timestamps[..] == SortSeq(old(timestamps[..]))
    ensures Sorted(timestamps[..]) && multiset(timestamps[..]) == multiset(old(timestamps[..]))
    ensures sessionCount == SessionCount(old(timestamps[..]), sessionGapMinutes)
  {
    if timestamps.Length == 0 {
      return 0;
    }
    SortInPlace(timestamps);
    sessionCount := 1;
    var lastTime := timestamps[0];
    for i := 1 to timestamps.Length
      invariant lastTime == timestamps[i - 1]
      invariant sessionCount == 1 + Splits(timestamps[..i], GapSeconds(sessionGapMinutes))
    {
      var gap := timestamps[i] - lastTime;
      if gap > GapSeconds(sessionGapMinutes) {
        sessionCount := sessionCount + 1;
      }
      lastTime := timestamps[i];
      assert timestamps[..i + 1][..i] == timestamps[..i];
    }
    assert timestamps[..timestamps.Length] == timestamps[..];
  }

  /** Reordering the timestamps does not change the number of sessions. */
  lemma SessionCountPermutation(a: seq<int>, b: seq<int>, sessionGapMinutes: int)
    requires multiset(a) == multiset(b)
    ensures SessionCount(a, sessionGapMinutes) == SessionCount(b, sessionGapMinutes)
  {
    SortSeqPermutation(a, b);
    assert |a| == |multiset(a)| == |multiset(b)| == |b|;
  }

  /** On timestamps already in ascending order, the count is one plus their splits. */
  lemma SessionCountOfSorted(s: seq<int>, sessionGapMinutes: int)
    requires Sorted(s) && s != []
    ensures SessionCount(s, sessionGapMinutes) == 1 + Splits(s, GapSeconds(sessionGapMinutes))
  {
    SortSeqOfSorted(s);
  }

  /** No neighbouring gap above the threshold means no split. */
  lemma {:induction false} NoSplits(s: seq<int>, gap: int)
    requires forall i :: 0 < i < |s| ==> s[i] - s[i - 1] <= gap
    ensures Splits(s, gap) == 0
  {
    if |s| >= 2 {
      NoSplits(s[..|s| - 1], gap);
    }
  }

  /**
   * Sorted timestamps whose neighbouring gaps are all at most the threshold
   * (including gaps exactly equal to it) form a single session.
   */
  lemma SingleSession(s: seq<int>, sessionGapMinutes: int)
    requires Sorted(s) && s != []
    requires forall i :: 0 < i < |s| ==> s[i] - s[i - 1] <= GapSeconds(sessionGapMinutes)
    ensures SessionCount(s, sessionGapMinutes) == 1
  {
    SessionCountOfSorted(s, sessionGapMinutes);
    NoSplits(s, GapSeconds(sessionGapMinutes));
  }

  /** Identical timestamps (gaps of zero) never start a new session. */
  lemma DuplicatesFormOneSession(t: int, n: nat, sessionGapMinutes: int)
    requires n > 0 && sessionGapMinutes >= 0
    ensures SessionCount(seq(n, _ => t), sessionGapMinutes) == 1
  {
    SingleSession(seq(n, _ => t), sessionGapMinutes);
  }

  /** Splits of a pair: one exactly when the second is more than `gap` after the first. */
  lemma SplitsPair(x: int, y: int, gap: int)
    ensures Splits([x, y], gap) == if y - x > gap then 1 else 0
  {
    assert [x, y][..1] == [x];
  }

  /**
   * Two timestamps, in either order, are two sessions exactly when they are
   * STRICTLY more than the threshold apart.
   */
  lemma TwoTimestamps(t1: int, t2: int, sessionGapMinutes: int)
    ensures SessionCount([t1, t2], sessionGapMinutes)
         == if t1 - t2 > GapSeconds(sessionGapMinutes) || t2 - t1 > GapSeconds(sessionGapMinutes) then 2 else 1
  {
    var lo, hi := if t1 <= t2 then t1 else t2, if t1 <= t2 then t2 else t1;
    assert Sorted([lo, hi]);
    assert multiset([lo, hi]) == multiset([t1, t2]);
    SessionCountPermutation([lo, hi], [t1, t2], sessionGapMinutes);
    SessionCountOfSorted([lo, hi], sessionGapMinutes);
    SplitsPair(lo, hi, GapSeconds(sessionGapMinutes));
  }

  // ----- Sessions as blocks of the sorted timeline -----

  /** The concatenation of the blocks, in order. */
  function Concat(blocks: seq<seq<int>>): seq<int>
  {
    if blocks == [] then [] else Concat(blocks[..|blocks| - 1]) + blocks[|blocks| - 1]
  }

  /** Every neighbouring gap inside `b` is at most `gap`. */
  predicate Tight(b: seq<int>, gap: int)
  {
    forall i :: 0 < i < |b| ==> b[i] - b[i - 1] <= gap
  }

  /**
   * `blocks` cuts `s` into sessions: non-empty consecutive pieces, no gap
   * above the threshold inside a piece and one above it between pieces.
   */
  predicate IsSessionPartition(blocks: seq<seq<int>>, s: seq<int>, gap: int)
  {
    && Concat(blocks) == s
    && (forall k :: 0 <= k < |blocks| ==> blocks[k] != [] && Tight(blocks[k], gap))
    && (forall k :: 0 < k < |blocks| ==> blocks[k][0] - blocks[k - 1][|blocks[k - 1]| - 1] > gap)
  }

  /** Cuts `s` at every gap above the threshold. */
  function Blocks(s: seq<int>, gap: int): (blocks: seq<seq<int>>)
    ensures s == [] <==> blocks == []
  {
    if |s| < 2 then (if s == [] then [] else [s])
    else
      var init := Blocks(s[..|s| - 1], gap);
      if s[|s| - 1] - s[|s| - 2] > gap then init + [[s[|s| - 1]]]
      else init[..|init| - 1] + [init[|init| - 1] + [s[|s| - 1]]]
  }

  /** Splits distribute over concatenation, counting the gap at the seam. */
  lemma {:induction false} SplitsAppend(a: seq<int>, b: seq<int>, gap: int)
    requires a != [] && b != []
    ensures Splits(a + b, gap)
         == Splits(a, gap) + (if b[0] - a[|a| - 1] > gap then 1 else 0) + Splits(b, gap)
  {
    var s := a + b;
    if |b| == 1 {
      assert s[..|s| - 1] == a;
    } else {
      assert s[..|s| - 1] == a + b[..|b| - 1];
      SplitsAppend(a, b[..|b| - 1], gap);
    }
  }

  /** Every session partition of `s` has exactly one block more than `s` has splits. */
  lemma {:induction false} PartitionSize(blocks: seq<seq<int>>, s: seq<int>, gap: int)
    requires IsSessionPartition(blocks, s, gap) && s != []
    ensures |blocks| == 1 + Splits(s, gap)
  {
    var n := |blocks|;
    var last := blocks[n - 1];
    NoSplits(last, gap);
    if n == 1 {
      assert Concat(blocks[..0]) == [];
      assert s == last;
    } else {
      var init := blocks[..n - 1];
      var t := Concat(init);
      assert IsSessionPartition(init, t, gap) by {
        forall k | 0 < k < |init| ensures init[k][0] - init[k - 1][|init[k - 1]| - 1] > gap {
          assert init[k] == blocks[k] && init[k - 1] == blocks[k - 1];
        }
      }
      ConcatLast(init);
      PartitionSize(init, t, gap);
      assert blocks[n - 1][0] - blocks[n - 2][|blocks[n - 2]| - 1] > gap;
      SplitsAppend(t, last, gap);
    }
  }

  /** The last element of a concatenation of non-empty blocks ends the last block. */
  lemma ConcatLast(blocks: seq<seq<int>>)
    requires blocks != [] && forall k :: 0 <= k < |blocks| ==> blocks[k] != []
    ensures Concat(blocks) != []
    ensures Concat(blocks)[|Concat(blocks)| - 1] == blocks[|blocks| - 1][|blocks[|blocks| - 1]| - 1]
  {
  }

  /** Cutting at the large gaps does produce a session partition. */
  lemma {:induction false} BlocksPartition(s: seq<int>, gap: int)
    ensures IsSessionPartition(Blocks(s, gap), s, gap)
  {
    if |s| < 2 {
      if s != [] {
        assert Concat([s]) == Concat([]) + s;
      }
    } else {
      var p := s[..|s| - 1];
      BlocksPartition(p, gap);
      assert s == p + [s[|s| - 1]];
      if s[|s| - 1] - s[|s| - 2] > gap {
        PartitionAppendBlock(Blocks(p, gap), p, s[|s| - 1], gap);
      } else {
        PartitionExtendBlock(Blocks(p, gap), p, s[|s| - 1], gap);
      }
    }
  }

  /** After a large gap, a new timestamp opens a new block. */
  lemma PartitionAppendBlock(init: seq<seq<int>>, p: seq<int>, x: int, gap: int)
    requires IsSessionPartition(init, p, gap) && p != []
    requires x - p[|p| - 1] > gap
    ensures IsSessionPartition(init + [[x]], p + [x], gap)
  {
    var blocks := init + [[x]];
    var n := |init|;
    assert init != [];
    ConcatLast(init);
    assert blocks[..n] == init;
    assert Concat(blocks) == p + [x];
    forall k | 0 <= k < |blocks| ensures blocks[k] != [] && Tight(blocks[k], gap) {
      if k < n { assert blocks[k] == init[k]; }
    }
    forall k | 0 < k < |blocks| ensures blocks[k][0] - blocks[k - 1][|blocks[k - 1]| - 1] > gap {
      assert blocks[k - 1] == init[k - 1];
      if k < n { assert blocks[k] == init[k]; }
    }
  }

  /** After a small gap, a new timestamp joins the last block. */
  lemma PartitionExtendBlock(init: seq<seq<int>>, p: seq<int>, x: int, gap: int)
    requires IsSessionPartition(init, p, gap) && p != []
    requires x - p[|p| - 1] <= gap
    ensures init != []
    ensures IsSessionPartition(init[..|init| - 1] + [init[|init| - 1] + [x]], p + [x], gap)
  {
    assert init != [];
    ConcatLast(init);
    var n := |init|;
    var lastBlock := init[n - 1] + [x];
    var blocks := init[..n - 1] + [lastBlock];
    assert blocks[..n - 1] == init[..n - 1];
    assert Concat(init) == Concat(init[..n - 1]) + init[n - 1];
    assert Concat(blocks) == Concat(init[..n - 1]) + lastBlock;
    assert Tight(lastBlock, gap) by {
      assert Tight(init[n - 1], gap);
    }
    forall k | 0 <= k < |blocks| ensures blocks[k] != [] && Tight(blocks[k], gap) {
      if k < n - 1 { assert blocks[k] == init[k]; }
    }
    forall k | 0 < k < |blocks| ensures blocks[k][0] - blocks[k - 1][|blocks[k - 1]| - 1] > gap {
      assert blocks[k - 1] == init[k - 1];
      if k < n - 1 { assert blocks[k] == init[k]; } else { assert blocks[k][0] == init[k][0]; }
    }
  }

  /**
   * The session count is the number of blocks when the sorted timeline is
   * cut into sessions, whichever valid cut is taken.
   */
  lemma SessionCountIsBlockCount(timestamps: seq<int>, sessionGapMinutes: int, blocks: seq<seq<int>>)
    requires IsSessionPartition(blocks, SortSeq(timestamps), GapSeconds(sessionGapMinutes))
    ensures SessionCount(timestamps, sessionGapMinutes) == |blocks|
  {
    if timestamps == [] {
      if blocks != [] {
        ConcatLast(blocks);
      }
    } else {
      PartitionSize(blocks, SortSeq(timestamps), GapSeconds(sessionGapMinutes));
    }
  }

  // ----- Duration estimate -----

  /**
   * `round(session_count * avg_minutes_per_session / 60, 2)` in hundredths
   * of an hour: the nearest whole number to `100 * m / 60 = 5 * m / 3`.
   * As `5 * m` is never half-way between multiples of 3, there is no tie.
   */
  function EstimateTotalTime(sessionCount: int, avgMinutesPerSession: int): (hundredths: int)
    ensures -1 <= 3 * hundredths - 5 * (sessionCount * avgMinutesPerSession) <= 1
  {
    (5 * (sessionCount * avgMinutesPerSession) + 1) / 3
  }

  /** The nearest hundredth is unique: any value within a third of a hundredth is the estimate. */
  lemma NearestHundredthUnique(sessionCount: int, avgMinutesPerSession: int, h: int)
    requires -1 <= 3 * h - 5 * (sessionCount * avgMinutesPerSession) <= 1
    ensures h == EstimateTotalTime(sessionCount, avgMinutesPerSession)
  {
  }

  /** For non-negative inputs the estimate is non-negative and grows with the session count. */
  lemma EstimateMonotone(s1: int, s2: int, avgMinutesPerSession: int)
    requires 0 <= s1 <= s2 && 0 <= avgMinutesPerSession
    ensures 0 <= EstimateTotalTime(s1, avgMinutesPerSession) <= EstimateTotalTime(s2, avgMinutesPerSession)
  {
    assert s1 * avgMinutesPerSession <= s2 * avgMinutesPerSession by {
      assert (s2 - s1) * avgMinutesPerSession >= 0;
    }
  }
}
